=== FILE: README.md ===
# BinderView page-flip controller, modelled in Dafny

This project models the core of `BinderView`, an Android container. The
container holds a row of panels and turns from one to the next with an
animated page flip driven by touch. Two parts are modelled:

- **The controller** (`Binder`, `binder_view.dfy`). Its state is the flip
  mode (`FLIP_NEXT`, `FLIP_NONE`, `FLIP_PREV`), the current panel index, the
  panel count, which panels are attached to the container, and each panel's
  visibility. Touch handling (`onTouch`), binding (`setAdapter`),
  `setCurrentView`, `setViewVisibility` and `updateRendererBitmaps` are pure
  functions over that state.
- **The renderer** (`FlipRenderer`, `renderer.dfy`). Its state is the scalar
  flip position, the target it animates towards, the two pending snapshot
  slots, the two textures they are uploaded into, and the time of the last
  animation frame. `moveFlipPosition`, `setFlipPosition`, `setBitmaps` and the
  upload/animate part of `onDrawFrame` are modelled here. The settle step of
  `onDrawFrame` needs the controller, so `Binder.DrawFrame` models the whole
  frame.

`Traces` (`traces.dfy`) applies arbitrary runs of touches, frames, clock
ticks and bindings. It proves that the validity invariant holds along every
run, and it checks worked scenarios. A binding in a run uses the corrected
`Binder.SetAdapter`, which also ends a gesture in progress (see "## Findings").
With no gesture in progress it equals `setAdapter` as written
(`Binder.SetAdapterAgreesWhenIdle`), so for the source as written the run
results hold for runs whose bindings all happen while no flip is under way. `Wrappers` holds the `Option` type that
stands in for the source's nullable bitmap references.

Modelling conventions:

- Panels are the indices `0 .. count-1` of the bound adapter.
- A snapshot is `Blank` or `PanelImage(i)`.
- Java floats are mathematical reals, and `0.01f` is exactly 1/100.
- `SystemClock.uptimeMillis` is the `now` field, advanced by `Tick(ms)`. So
  the time since the last animation frame is a natural number.
- The current panel's `onTouchEvent` answer is the event field `childHandles`.
- `post(setCurrentView(index))` in `onDrawFrame` is a direct call at the end
  of the frame.
- `requestRender` sets the renderer's `renderRequested` flag. A frame clears
  it first, as the render thread does before drawing.

The model follows the code's release rule. A forward flip commits only when
released in the upper half (`2y < h`), and a backward flip only when released
in the lower half (`2y > h`). The renderer then animates to -1 for a release
below the midpoint and to +1 otherwise. So a committed forward flip settles at
+1, not -1 (`Traces.ForwardFlipCommits`).

## Model

| member | source | states |
|---|---|---|
| FlipRenderer.Clamp | src/fi/harism/viewbinder/BinderView.java:178 | the drag value is limited to [-1, 1]; values already inside are kept, and values beyond either end become that end |
| FlipRenderer.StepFraction | src/fi/harism/viewbinder/BinderView.java:410 | the per-frame interpolation factor lies in [0, 1]; it is 0 exactly when no time passed and 1 exactly from 100 ms on |
| FlipRenderer.ConvexCombination | src/fi/harism/viewbinder/BinderView.java:411-412 | moving a share t in [0, 1] from position to target stays between them and leaves (1 - t) of the distance |
| FlipRenderer.Step | src/fi/harism/viewbinder/BinderView.java:408-412 | the new position lies between the old position and the target, so it stays in [-1, 1]; it reaches the target after 100 ms, does not move when no time passed, and otherwise gets strictly closer, leaving exactly the share 1 - min(1, elapsed * 0.01) of the distance |
| FlipRenderer.MoveFlipPosition | src/fi/harism/viewbinder/BinderView.java:355-358 | only the target changes and a frame is requested; an animation is pending exactly when the kept position is more than 0.01 from the new target |
| FlipRenderer.SetFlipPosition | src/fi/harism/viewbinder/BinderView.java:484-489 | position and target both jump to the value, leaving nothing to animate; the frame clock restarts at now; the snapshot slots and textures are untouched |
| FlipRenderer.SetBitmaps | src/fi/harism/viewbinder/BinderView.java:472-479 | a pending slot is replaced only by a non-null bitmap; a null argument keeps the slot as it was |
| FlipRenderer.UploadPending | src/fi/harism/viewbinder/BinderView.java:385-397 | after upload both pending slots are empty; each texture holds its slot's bitmap if there was one, else keeps its old content |
| FlipRenderer.Animate | src/fi/harism/viewbinder/BinderView.java:407-415 | while farther than 0.01 from the target, the position steps towards it, leaving exactly the share 1 - min(1, elapsed * 0.01) of the distance, where elapsed is the time since the last animation frame; it stays in range, records the frame time and asks for another frame; it lands on the target after 100 ms; otherwise nothing changes |
| FlipRenderer.RetargetReached | src/fi/harism/viewbinder/BinderView.java:407-415 | after a new target is set, the first frame at least 100 ms after the last animation frame brings the position within 0.01 of it |
| FlipRenderer.LatestSnapshotsWin | src/fi/harism/viewbinder/BinderView.java:385-397 | of two snapshot pairs handed over before one frame, only the later pair reaches the textures |
| Binder.Panels | src/fi/harism/viewbinder/BinderView.java:206-210 | the binding's panels are exactly the indices 0 to count-1 |
| Binder.SetViewVisibility | src/fi/harism/viewbinder/BinderView.java:243-251 | the panel gets the requested visibility and is attached if it was not; no other panel's visibility changes |
| Binder.SetCurrentView | src/fi/harism/viewbinder/BinderView.java:218-238 | afterwards exactly the existing panels among i-1, i, i+1 are attached; i is visible and its neighbours are hidden; panels outside the neighbourhood keep their visibility |
| Binder.SetAdapterAsWritten | src/fi/harism/viewbinder/BinderView.java:205-213 | the index becomes 0 over the new count; panels 0 and 1 are attached, 0 shown and 1 hidden; the flip mode of a gesture in progress is kept |
| Binder.SetAdapterAsWrittenBreaksIndex | src/fi/harism/viewbinder/BinderView.java:205-213 | rebinding during a backward flip, then releasing in the lower half, moves the index to -1 |
| Binder.SetAdapterAgreesWhenIdle | src/fi/harism/viewbinder/BinderView.java:205-213 | with no gesture in progress the corrected binding gives exactly the view setAdapter as written gives; during a flip the two differ in the mode |
| Binder.SetAdapter | src/fi/harism/viewbinder/BinderView.java:205-213 | as written, but the flip mode is reset, so a valid view stays valid |
| Binder.Snapshots | src/fi/harism/viewbinder/BinderView.java:256-281 | a forward flip draws the current panel on top and the next below; a backward flip draws the previous panel on top and the current below; a missing panel is blank |
| Binder.SnapshotsInBounds | src/fi/harism/viewbinder/BinderView.java:264-281 | in a valid flipping state both snapshots show existing, adjacent panels; the top one is the lower-numbered, and one of them is the current panel |
| Binder.UpdateRendererBitmaps | src/fi/harism/viewbinder/BinderView.java:256-284 | both pending slots are filled with the chosen snapshots; nothing else in the view or the renderer changes |
| Binder.MoveTarget | src/fi/harism/viewbinder/BinderView.java:175-178 | the drag target is in [-1, 1]; it is positive exactly above the midpoint and negative exactly below it; it is +1 at or above the top edge and -1 at or below the bottom edge; in between it is (h - 2y) / h |
| Binder.StartFlip | src/fi/harism/viewbinder/BinderView.java:159-172 | a starting flip enters its mode, snapshots the panels and jumps position and target to the start value with nothing left to animate |
| Binder.OnDown | src/fi/harism/viewbinder/BinderView.java:158-173 | a press in the lower half, when a next panel exists, starts a forward flip at -1 with snapshots of panels index and index+1; a press in the upper half, when a previous panel exists, starts a backward flip at +1 with snapshots of index-1 and index; otherwise, including a press exactly at the midpoint, nothing changes; the index never changes |
| Binder.OnMove | src/fi/harism/viewbinder/BinderView.java:175-181 | during a flip, the target becomes the clamped drag value; mode, index and position are kept; without a flip nothing changes |
| Binder.OnUp | src/fi/harism/viewbinder/BinderView.java:183-193 | the index rises by one exactly when a forward flip is released above the midpoint and falls by one exactly when a backward flip is released below it; the mode becomes FLIP_NONE; the target is -1 below the midpoint and +1 otherwise |
| Binder.OnTouch | src/fi/harism/viewbinder/BinderView.java:148-197 | a swallowed touch changes nothing; only a release changes the index, and it ends the gesture; only presses and releases change the mode; other actions change nothing |
| Binder.OnTouchPreservesValid | src/fi/harism/viewbinder/BinderView.java:148-197 | every touch keeps the index on an existing panel, keeps a panel to flip to while flipping, and keeps position and target in [-1, 1] |
| Binder.DrawFrame | src/fi/harism/viewbinder/BinderView.java:385-425 | after any frame both pending slots are empty and the textures hold the newest snapshots; the position moves between itself and the target, leaving exactly the share 1 - min(1, elapsed * 0.01) of the distance while animating, and another frame is requested exactly while animating; a converged frame with no gesture in progress attaches exactly the current panel's neighbourhood and shows the current panel with its neighbours hidden; otherwise attachment and visibility are kept |
| Binder.DrawFramePreservesValid | src/fi/harism/viewbinder/BinderView.java:407-425 | a frame keeps the view valid |
| Binder.SetCurrentViewIdempotent | src/fi/harism/viewbinder/BinderView.java:218-238 | making the same panel current twice gives the same view as doing it once |
| Binder.SettledFrameIdempotent | src/fi/harism/viewbinder/BinderView.java:407-425 | once the animation has converged, a second frame changes nothing |
| Traces.Apply | src/fi/harism/viewbinder/BinderView.java:148-213 | a touch, frame, tick or binding (the corrected one) keeps a valid view valid; only a release or a binding changes the index, and a release leaves the mode FLIP_NONE |
| Traces.Run | src/fi/harism/viewbinder/BinderView.java:148-213 | any run of inputs from a valid view, bindings being the corrected one, ends in a valid view; without a binding the panel count is kept |
| Traces.InitialValid | src/fi/harism/viewbinder/BinderView.java:96-99 | the view before any binding (no panels, index 0, FLIP_NONE) is valid |
| Traces.EveryPrefixInBounds | src/fi/harism/viewbinder/BinderView.java:159-190 | at every point of any run (bindings being the corrected one), the index names an existing panel when there is one, a forward flip has a next panel, a backward flip has a previous one, and position and target stay in [-1, 1] |
| Traces.ForwardFlipCommits | src/fi/harism/viewbinder/BinderView.java:158-193 | with three panels: press low, drag high and release high; the index becomes 1, snapshots of panels 0 and 1 are uploaded, the position settles at +1, and panels 0, 1, 2 are attached with only 1 shown |
| Traces.ForwardFlipAdvances | src/fi/harism/viewbinder/BinderView.java:158-192 | from any panel but the last, a press in the lower half and a release in the upper half advance the index by exactly one and end at target +1 |
| Traces.BackwardFlipRetreats | src/fi/harism/viewbinder/BinderView.java:166-192 | from any panel but the first, a press in the upper half and a release in the lower half move the index back by exactly one and end at target -1 |
| Traces.FlipThereAndBack | src/fi/harism/viewbinder/BinderView.java:158-193 | a committed forward flip followed by a committed backward flip returns to the starting panel with no gesture in progress |
| Traces.ForwardFlipCancels | src/fi/harism/viewbinder/BinderView.java:184-192 | a forward flip released in the lower half keeps the index and animates back to -1 |
| Traces.NoFlipPastTheEnds | src/fi/harism/viewbinder/BinderView.java:159-172 | a press towards a panel beyond the first or last one leaves the idle view unchanged |
| Traces.SettlesAfterPause | src/fi/harism/viewbinder/BinderView.java:407-425 | with no gesture in progress, 100 ms and two frames leave the animation converged, the current panel shown and exactly its neighbourhood attached |

## Left out

- GL plumbing is not modelled: shader compilation and linking, texture allocation, uniform and attribute lookups, and the draw calls. These are foreign GPU calls. The textures are modelled only by the snapshot they hold.
- The fragment and vertex shaders are not modelled. They are per-pixel floating-point code in a shader language.
- Floating point is not modelled. Positions, targets and drag values are reals, and `0.01f` is taken as exactly 1/100.
- Binder.OnTouch: with no flip in progress and a negative index, the source throws `ArrayIndexOutOfBoundsException` when it asks `mViewChildren[index]` whether it handles the touch. The model does not raise that error; it dispatches the touch as usual. Only `setAdapter` as written can reach a negative index (see "## Findings"), and every valid view has a non-negative index.
- OnTouch: a drag during a flip at `y == 0` on a view of height 0 computes `0f / 0f` (NaN) in the source. The model excludes that one input by a precondition (`ProducesNaN`); runs exclude every drag at `y == 0` on a zero-height view (`Traces.Defined`). A drag at any other `y` on a zero-height view is modelled as the clamped infinity.
- Threading is not modelled. `onDrawFrame` runs on the render thread and reads the mode and index set on the UI thread; the model applies inputs one at a time. `post` is a direct call, so settling uses the index at frame time, not when the posted action runs.
- The `onTouch` return value is not modelled. It is `true` on every path.
- Binder.SetAdapterAsWritten: fresh panels are assumed VISIBLE, Android's default for a new view; the source leaves their visibility as the adapter's `createView` returned it, and the model does not track that.
- Traces.Apply: a binding applies the corrected `SetAdapter`; for `setAdapter` as written, validity is kept only by bindings made with no gesture in progress.
- Traces.Run: proved with the corrected binding; for the source as written it holds for runs whose bindings all happen while the mode is FLIP_NONE.
- Traces.EveryPrefixInBounds: inherits the corrected binding of `Traces.Run`, so for the source as written it covers runs whose bindings happen while no flip is under way.
- OnDown: on a view of zero width or height the source cannot start a flip, because `Bitmap.createBitmap` throws for a zero dimension; the model starts it anyway. A press on a zero-height view does not arise in practice, since such a view receives no touches.
- `SetAdapter`: the views of an earlier binding stay attached to the container in the source, because `setAdapter` never removes them. The model tracks only the panels of the current binding.
- View machinery is not modelled: `bringToFront`, z-order, `invalidate`, the views' own drawing and the construction in `init`. The renderer view being brought to the front on a press is not tracked.
- Context loss (`onSurfaceCreated` forgetting texture ids) and the error `Toast` are not modelled. They are GL lifecycle and UI side effects.
- `BinderActivity` and `BinderAdapter` are not modelled. They are demo glue and a two-method interface. An adapter is modelled only by its panel count.

## Findings

| source | as written | input that shows it | evidently intended | confidence | as-written member | corrected member |
|---|---|---|---|---|---|---|
| src/fi/harism/viewbinder/BinderView.java:205-213 | `setAdapter` resets the index to 0 but keeps `mFlipMode`, so a gesture in progress survives the rebinding | three panels, index 1, a backward flip in progress; `setAdapter` with three panels, then a release with `2y > h`; the index becomes -1, and the next touch reads `mViewChildren[-1]` | the index always names an existing panel, so rebinding ends any gesture | medium, not executed | Binder.SetAdapterAsWritten, Binder.SetAdapterAsWrittenBreaksIndex | Binder.SetAdapter |

=== FILE: binder_view.dfy ===
/**
  The touch-driven page-flip controller of BinderView: the flip mode, the
  index of the current panel among `count` panels, which panels are attached
  to the container and their visibility, and the renderer it drives.

  Panels are the indices 0 .. count-1 of the bound adapter. The clock
  (SystemClock.uptimeMillis) is the `now` field, advanced from outside.
*/
module Binder {
  import opened Wrappers
  import opened FlipRenderer

  /** FLIP_NEXT, FLIP_NONE and FLIP_PREV. */
  datatype Mode = FlipNext | FlipNone | FlipPrev

  /** MotionEvent actions; every other action falls through the switch. */
  datatype Action = Down | Move | Up | OtherAction

  /** A touch event at vertical coordinate `y` on a view `height` pixels tall;
      `childHandles` is what the current panel's onTouchEvent answers when asked. */
  datatype Touch = Touch(action: Action, y: real, height: nat, childHandles: bool)

  datatype BinderView = BinderView(
    mode: Mode,
    index: int,
    count: nat,
    attached: set<int>,
    visible: map<int, bool>,
    renderer: Renderer,
    now: int)

  /** A view before any adapter is bound. */
  const Initial: BinderView := BinderView(FlipNone, 0, 0, {}, map[], FlipRenderer.Initial, 0)

  /** The panel indices 0 .. count-1 of a binding with `count` panels. */
  function Panels(count: nat): (p: set<int>)
    ensures forall j :: j in p <==> 0 <= j < count
  {
    if count == 0 then {} else Panels(count - 1) + {count - 1}
  }

  /** The existing panels among i-1, i and i+1. */
  function Neighbourhood(i: int, count: nat): (n: set<int>)
    ensures forall j :: j in n <==> 0 <= j < count && i - 1 <= j <= i + 1
  {
    (if 0 <= i - 1 < count then {i - 1} else {})
    + (if 0 <= i < count then {i} else {})
    + (if 0 <= i + 1 < count then {i + 1} else {})
  }

  /** The panels the two removal loops of setCurrentView(i) detach:
      those below i-1 and those from i+2 on. */
  function Detached(i: int, count: nat): set<int> {
    set j | j in Panels(count) && (j < i - 1 || i + 2 <= j)
  }

  /** The state every reachable view keeps. */
  ghost predicate Valid(s: BinderView) {
    && 0 <= s.index
    && (s.index < s.count || s.index == 0)
    && (s.mode == FlipNext ==> s.index < s.count - 1)
    && (s.mode == FlipPrev ==> s.index > 0)
    && s.attached <= Panels(s.count)
    && s.visible.Keys == Panels(s.count)
    && InRange(s.renderer.position)
    && InRange(s.renderer.target)
    && s.renderer.lastRenderTime <= s.now
  }

  // ---------------------------------------------------------------- binding

  /** setViewVisibility: set a panel's visibility and attach it if it is not attached. */
  function SetViewVisibility(s: BinderView, j: int, shown: bool): (r: BinderView)
    ensures j in r.attached && j in r.visible && r.visible[j] == shown
    ensures r.attached == s.attached + {j}
    ensures forall k :: k in s.visible && k != j ==> k in r.visible && r.visible[k] == s.visible[k]
    ensures r.visible.Keys == s.visible.Keys + {j}
    ensures r == s.(attached := r.attached, visible := r.visible)
  {
    s.(visible := s.visible[j := shown], attached := s.attached + {j})
  }

  /** setCurrentView(i): show panel i, keep its neighbours attached but hidden,
      and detach every panel two or more steps away. */
  function SetCurrentView(s: BinderView, i: int): (r: BinderView)
    requires -1 <= i <= s.count
    ensures r == s.(attached := r.attached, visible := r.visible)
    ensures r.attached <= s.attached + Neighbourhood(i, s.count)
    ensures s.attached <= Panels(s.count) ==> r.attached == Neighbourhood(i, s.count)
    ensures 0 <= i < s.count ==> i in r.visible && r.visible[i]
    ensures forall j :: j in Neighbourhood(i, s.count) && j != i ==> j in r.visible && !r.visible[j]
    ensures forall j :: j in s.visible && j !in Neighbourhood(i, s.count) ==> j in r.visible && r.visible[j] == s.visible[j]
    ensures r.visible.Keys == s.visible.Keys + Neighbourhood(i, s.count)
  {
    var v1 := if 0 <= i < s.count then SetViewVisibility(s, i, true) else s;
    var v2 := if i > 0 then SetViewVisibility(v1, i - 1, false) else v1;
    var v3 := if i < s.count - 1 then SetViewVisibility(v2, i + 1, false) else v2;
    assert Neighbourhood(i, s.count) == v3.attached - s.attached + (Neighbourhood(i, s.count) * s.attached);
    v3.(attached := v3.attached - Detached(i, s.count))
  }

  /** setAdapter as written: bind `count` fresh panels, make panel 0 current,
      and keep the flip mode of a gesture that may be in progress. Fresh panels
      start VISIBLE, Android's default for a newly created view. */
  function SetAdapterAsWritten(s: BinderView, count: nat): (r: BinderView)
    ensures r.index == 0 && r.count == count && r.mode == s.mode
    ensures r.attached == Neighbourhood(0, count)
    ensures r.visible.Keys == Panels(count)
    ensures count > 0 ==> 0 in r.visible && r.visible[0]
    ensures count > 1 ==> 1 in r.visible && !r.visible[1]
    ensures forall j :: 2 <= j < count ==> j in r.visible && r.visible[j]
    ensures r.renderer == s.renderer && r.now == s.now
  {
    var bound := s.(index := 0, count := count, attached := {},
                    visible := map j | j in Panels(count) :: true);
    SetCurrentView(bound, 0)
  }

  /** setAdapter as evidently intended: as written, but a gesture in progress
      is abandoned, so the flip mode cannot point past the new binding. */
  function SetAdapter(s: BinderView, count: nat): (r: BinderView)
    ensures r.index == 0 && r.count == count && r.mode == FlipNone
    ensures r.attached == Neighbourhood(0, count)
    ensures count > 0 ==> 0 in r.visible && r.visible[0]
    ensures count > 1 ==> 1 in r.visible && !r.visible[1]
    ensures forall j :: 2 <= j < count ==> j in r.visible && r.visible[j]
    ensures r.renderer == s.renderer && r.now == s.now
    ensures Valid(s) ==> Valid(r)
  {
    SetAdapterAsWritten(s.(mode := FlipNone), count)
  }

  /** With no gesture in progress, the corrected binding is the binding as
      written: the two differ only when a flip is under way. */
  lemma SetAdapterAgreesWhenIdle(s: BinderView, count: nat)
    ensures s.mode == FlipNone ==> SetAdapter(s, count) == SetAdapterAsWritten(s, count)
    ensures s.mode != FlipNone ==> SetAdapter(s, count).mode != SetAdapterAsWritten(s, count).mode
  {
  }

  /** Rebinding in the middle of a backward flip: the retained FLIP_PREV mode
      lets the release move the index to -1, outside every binding. */
  lemma SetAdapterAsWrittenBreaksIndex()
    ensures var s := BinderView(FlipPrev, 1, 3, {0, 1, 2}, map[0 := false, 1 := true, 2 := false],
                                FlipRenderer.Initial, 0);
            var rebound := SetAdapterAsWritten(s, 3);
            var released := OnTouch(rebound, Touch(Up, 90.0, 100, false));
            Valid(s) && !Valid(rebound) && released.index == -1
  {
    var s := BinderView(FlipPrev, 1, 3, {0, 1, 2}, map[0 := false, 1 := true, 2 := false],
                        FlipRenderer.Initial, 0);
    assert s.visible.Keys == Panels(3);
  }

  // ---------------------------------------------------------------- snapshots

  /** The two bitmaps updateRendererBitmaps draws: both are always created,
      and each shows a panel only when the mode and the index allow it. */
  function Snapshots(mode: Mode, index: int, count: nat): (pair: (Snapshot, Snapshot))
    ensures mode == FlipNext ==> pair.0 == PanelImage(index)
    ensures mode == FlipNext ==> pair.1 == (if index < count - 1 then PanelImage(index + 1) else Blank)
    ensures mode == FlipPrev ==> pair.1 == PanelImage(index)
    ensures mode == FlipPrev ==> pair.0 == (if index > 0 then PanelImage(index - 1) else Blank)
    ensures mode == FlipNone ==> pair == (Blank, Blank)
  {
    var top := if mode == FlipNext then PanelImage(index) else Blank;
    var bottom := if mode == FlipNext && index < count - 1 then PanelImage(index + 1) else Blank;
    var bottom' := if mode == FlipPrev then PanelImage(index) else bottom;
    var top' := if mode == FlipPrev && index > 0 then PanelImage(index - 1) else top;
    (top', bottom')
  }

  /** In a valid flipping state the snapshots are two adjacent existing panels,
      the current one among them, the top one the lower-numbered. */
  lemma SnapshotsInBounds(s: BinderView)
    requires Valid(s) && s.mode != FlipNone
    ensures var (top, bottom) := Snapshots(s.mode, s.index, s.count);
            && top.PanelImage? && bottom.PanelImage?
            && top.panel in Panels(s.count) && bottom.panel in Panels(s.count)
            && bottom.panel == top.panel + 1
            && s.index in {top.panel, bottom.panel}
  {
  }

  /** updateRendererBitmaps: hand both snapshots to the renderer. */
  function UpdateRendererBitmaps(s: BinderView): (r: BinderView)
    ensures r.renderer.pendingTop == Some(Snapshots(s.mode, s.index, s.count).0)
    ensures r.renderer.pendingBottom == Some(Snapshots(s.mode, s.index, s.count).1)
    ensures r == s.(renderer := r.renderer)
    ensures r.renderer == s.renderer.(pendingTop := r.renderer.pendingTop, pendingBottom := r.renderer.pendingBottom)
  {
    var (top, bottom) := Snapshots(s.mode, s.index, s.count);
    s.(renderer := SetBitmaps(s.renderer, Some(top), Some(bottom)))
  }

  // ---------------------------------------------------------------- touches

  /** A touch the controller leaves alone: no flip is in progress and either
      there is no current panel or the current panel handles the touch itself. */
  predicate Swallowed(s: BinderView, ev: Touch) {
    s.mode == FlipNone && (s.index >= s.count || ev.childHandles)
  }

  /** The one input on which the source computes 0f / 0f: a drag on a view of
      zero height at y == 0 while a flip is in progress. */
  predicate ProducesNaN(s: BinderView, ev: Touch) {
    ev.action == Move && s.mode != FlipNone && ev.height == 0 && ev.y == 0.0
  }

  /** The target a drag to `my` (twice the touch y) asks for:
      clamp((height - my) / height, -1, 1). On a view of zero height the
      quotient is an infinity of the sign of -my, which the clamp turns into -1 or 1. */
  function MoveTarget(my: real, height: nat): (t: real)
    requires height > 0 || my != 0.0
    ensures InRange(t)
    ensures t > 0.0 <==> my < height as real
    ensures t < 0.0 <==> my > height as real
    ensures my <= 0.0 ==> t == 1.0
    ensures my >= 2.0 * height as real ==> t == -1.0
    ensures height > 0 && 0.0 <= my <= 2.0 * height as real ==> t * height as real == height as real - my
  {
    var h := height as real;
    if height > 0 then
      QuotientCompare(h - my, h, 0.0);
      QuotientCompare(h - my, h, 1.0);
      QuotientCompare(h - my, h, -1.0);
      Clamp((h - my) / h)
    else if my > 0.0 then -1.0
    else 1.0
  }

  /** Dividing by a positive h preserves comparisons with any bound c scaled by h. */
  lemma QuotientCompare(a: real, h: real, c: real)
    requires h > 0.0
    ensures a / h < c <==> a < c * h
    ensures a / h > c <==> a > c * h
  {
    var q := a / h;
    assert q * h == a;
    assert (q - c) * h == a - c * h;
  }

  /** Starting a flip: enter `mode`, snapshot the panels, jump the renderer to `position`. */
  function StartFlip(s: BinderView, mode: Mode, position: real): (r: BinderView)
    ensures r.mode == mode && r.renderer.position == position && r.renderer.target == position
    ensures r.renderer.pendingTop == Some(Snapshots(mode, s.index, s.count).0)
    ensures r.renderer.pendingBottom == Some(Snapshots(mode, s.index, s.count).1)
    ensures r.renderer.lastRenderTime == s.now && !Animating(r.renderer)
    ensures r.renderer.textureTop == s.renderer.textureTop && r.renderer.textureBottom == s.renderer.textureBottom
    ensures r == s.(mode := mode, renderer := r.renderer)
  {
    var flipping := UpdateRendererBitmaps(s.(mode := mode));
    flipping.(renderer := SetFlipPosition(flipping.renderer, position, s.now))
  }

  /** ACTION_DOWN with my == 2 * y: a press in the lower half starts a forward
      flip unless the last panel is current, a press in the upper half a
      backward flip unless the first one is; anything else changes nothing. */
  function OnDown(s: BinderView, my: real, h: real): (r: BinderView)
    ensures r.index == s.index && r.count == s.count
    ensures r.attached == s.attached && r.visible == s.visible && r.now == s.now
    ensures my > h && s.index < s.count - 1 ==>
              && r.mode == FlipNext
              && r.renderer.position == -1.0 && r.renderer.target == -1.0
              && r.renderer.pendingTop == Some(PanelImage(s.index))
              && r.renderer.pendingBottom == Some(PanelImage(s.index + 1))
              && r.renderer.lastRenderTime == s.now && r.renderer.renderRequested
    ensures my < h && s.index > 0 ==>
              && r.mode == FlipPrev
              && r.renderer.position == 1.0 && r.renderer.target == 1.0
              && r.renderer.pendingTop == Some(PanelImage(s.index - 1))
              && r.renderer.pendingBottom == Some(PanelImage(s.index))
              && r.renderer.lastRenderTime == s.now && r.renderer.renderRequested
    ensures !(my > h && s.index < s.count - 1) && !(my < h && s.index > 0) ==> r == s
    ensures r.renderer.textureTop == s.renderer.textureTop && r.renderer.textureBottom == s.renderer.textureBottom
  {
    var s1 := if my > h && s.index < s.count - 1 then StartFlip(s, FlipNext, -1.0) else s;
    if my < h && s1.index > 0 then StartFlip(s1, FlipPrev, 1.0) else s1
  }

  /** ACTION_MOVE: during a flip, the drag position becomes the renderer's new
      target; the position itself is left for the frames to animate. */
  function OnMove(s: BinderView, my: real, height: nat): (r: BinderView)
    requires s.mode != FlipNone ==> height > 0 || my != 0.0
    ensures s.mode == FlipNone ==> r == s
    ensures s.mode != FlipNone ==> r.renderer.target == MoveTarget(my, height) && InRange(r.renderer.target)
    ensures r.mode == s.mode && r.index == s.index && r.renderer.position == s.renderer.position
    ensures r == s.(renderer := r.renderer)
    ensures r.renderer == s.renderer.(target := r.renderer.target, renderRequested := r.renderer.renderRequested)
  {
    if s.mode != FlipNone then
      s.(renderer := MoveFlipPosition(s.renderer, MoveTarget(my, height)))
    else
      s
  }

  /** ACTION_UP: a forward flip commits when released in the upper half, a
      backward flip when released in the lower half; the gesture ends, and the
      renderer animates to -1 when released below the midpoint, to +1 otherwise. */
  function OnUp(s: BinderView, my: real, h: real): (r: BinderView)
    ensures r.mode == FlipNone
    ensures r.index == s.index + 1 <==> s.mode == FlipNext && my < h
    ensures r.index == s.index - 1 <==> s.mode == FlipPrev && my > h
    ensures r.index == s.index <==> !(s.mode == FlipNext && my < h) && !(s.mode == FlipPrev && my > h)
    ensures my > h ==> r.renderer.target == -1.0
    ensures my <= h ==> r.renderer.target == 1.0
    ensures r.renderer.position == s.renderer.position
    ensures r.count == s.count && r.attached == s.attached && r.visible == s.visible && r.now == s.now
    ensures r.renderer == s.renderer.(target := r.renderer.target, renderRequested := r.renderer.renderRequested)
  {
    var index :=
      if my < h && s.mode == FlipNext then s.index + 1
      else if my > h && s.mode == FlipPrev then s.index - 1
      else s.index;
    s.(index := index, mode := FlipNone,
       renderer := MoveFlipPosition(s.renderer, if my > h then -1.0 else 1.0))
  }

  /** onTouch. It always reports the event as consumed, so the model keeps only its effect. */
  function OnTouch(s: BinderView, ev: Touch): (r: BinderView)
    requires !ProducesNaN(s, ev)
    ensures Swallowed(s, ev) ==> r == s
    ensures r.count == s.count && r.now == s.now
    ensures r.attached == s.attached && r.visible == s.visible
    ensures r.index != s.index ==> ev.action == Up && r.mode == FlipNone
    ensures r.mode != s.mode ==> ev.action in {Down, Up}
    ensures ev.action == OtherAction ==> r == s
  {
    if Swallowed(s, ev) then s
    else
      var my := 2.0 * ev.y;
      var h := ev.height as real;
      match ev.action
      case Down => OnDown(s, my, h)
      case Move => OnMove(s, my, ev.height)
      case Up => OnUp(s, my, h)
      case OtherAction => s
  }

  /** Every touch keeps the view valid: the index stays on an existing panel and
      a flip in progress always has a panel to flip to. */
  lemma OnTouchPreservesValid(s: BinderView, ev: Touch)
    requires Valid(s) && !ProducesNaN(s, ev)
    ensures Valid(OnTouch(s, ev))
  {
  }

  // ---------------------------------------------------------------- frames

  /** onDrawFrame at the current time: upload pending snapshots, then either
      take one animation step or, once converged with no gesture in progress,
      settle by making the current panel the visible one. */
  function DrawFrame(s: BinderView): (r: BinderView)
    requires Animating(s.renderer) ==> s.renderer.lastRenderTime <= s.now
    requires !Animating(s.renderer) && s.mode == FlipNone ==> -1 <= s.index <= s.count
    ensures r.renderer.pendingTop.None? && r.renderer.pendingBottom.None?
    ensures s.renderer.pendingTop.Some? ==> r.renderer.textureTop == s.renderer.pendingTop
    ensures s.renderer.pendingBottom.Some? ==> r.renderer.textureBottom == s.renderer.pendingBottom
    ensures s.renderer.pendingTop.None? ==> r.renderer.textureTop == s.renderer.textureTop
    ensures s.renderer.pendingBottom.None? ==> r.renderer.textureBottom == s.renderer.textureBottom
    ensures r.mode == s.mode && r.index == s.index && r.count == s.count && r.now == s.now
    ensures r.renderer.target == s.renderer.target
    ensures Between(s.renderer.position, s.renderer.target, r.renderer.position)
    ensures Animating(s.renderer) ==>
              Abs(r.renderer.position - s.renderer.target)
              == (1.0 - StepFraction(s.now - s.renderer.lastRenderTime)) * Abs(s.renderer.position - s.renderer.target)
    ensures r.renderer.renderRequested <==> Animating(s.renderer)
    ensures !Animating(s.renderer) ==> r.renderer.position == s.renderer.position
    ensures Animating(s.renderer) && s.now - s.renderer.lastRenderTime >= 100 ==> !Animating(r.renderer)
    ensures Animating(s.renderer) || s.mode != FlipNone ==> r.attached == s.attached && r.visible == s.visible
    ensures !Animating(s.renderer) && s.mode == FlipNone && s.attached <= Panels(s.count) ==>
              r.attached == Neighbourhood(s.index, s.count)
    ensures !Animating(s.renderer) && s.mode == FlipNone && 0 <= s.index < s.count ==>
              s.index in r.visible && r.visible[s.index]
    ensures !Animating(s.renderer) && s.mode == FlipNone ==>
              forall j :: j in Neighbourhood(s.index, s.count) && j != s.index ==> j in r.visible && !r.visible[j]
  {
    var uploaded := s.(renderer := UploadPending(s.renderer.(renderRequested := false)));
    if Animating(uploaded.renderer) then
      uploaded.(renderer := Animate(uploaded.renderer, s.now))
    else if s.mode == FlipNone then
      SetCurrentView(uploaded, s.index)
    else
      uploaded
  }

  lemma DrawFramePreservesValid(s: BinderView)
    requires Valid(s)
    ensures Valid(DrawFrame(s))
  {
  }

  /** Settling is idempotent: making the same panel current twice is the same as once. */
  lemma SetCurrentViewIdempotent(s: BinderView, i: int)
    requires -1 <= i <= s.count
    ensures SetCurrentView(SetCurrentView(s, i), i) == SetCurrentView(s, i)
  {
  }

  /** Once the animation has converged, a second frame changes nothing. */
  lemma SettledFrameIdempotent(s: BinderView)
    requires Valid(s) && !Animating(s.renderer)
    ensures DrawFrame(DrawFrame(s)) == DrawFrame(s)
  {
    var uploaded := s.(renderer := UploadPending(s.renderer.(renderRequested := false)));
    if s.mode == FlipNone {
      SetCurrentViewIdempotent(uploaded, s.index);
    }
  }
}

=== FILE: renderer.dfy ===
/**
  The flip renderer of BinderView (its inner class Renderer): the scalar flip
  position, the target it animates towards, the two pending snapshot slots
  waiting for upload and the two textures they are uploaded into.

  Floats are modelled as reals; GL calls are left out. Positions lie in
  [-1, 1]: -1 shows the top snapshot, +1 the bottom one.
*/
module FlipRenderer {
  import opened Wrappers

  /** What a bitmap or texture shows: a blank bitmap, or a drawing of panel `panel`. */
  datatype Snapshot = Blank | PanelImage(panel: int)

  /** Animation stops once the position is within Epsilon of the target. */
  const Epsilon: real := 0.01

  /** Share of the remaining distance covered per elapsed millisecond. */
  const RatePerMilli: real := 0.01

  datatype Renderer = Renderer(
    position: real,
    target: real,
    pendingTop: Option<Snapshot>,
    pendingBottom: Option<Snapshot>,
    textureTop: Option<Snapshot>,
    textureBottom: Option<Snapshot>,
    lastRenderTime: int,
    renderRequested: bool)

  /** A freshly constructed renderer: Java's zero defaults and null references. */
  const Initial: Renderer := Renderer(0.0, 0.0, None, None, None, None, 0, false)

  predicate InRange(x: real) {
    -1.0 <= x <= 1.0
  }

  function Abs(x: real): real {
    if x < 0.0 then -x else x
  }

  /** x lies on the closed segment between a and b. */
  predicate Between(a: real, b: real, x: real) {
    (a <= x <= b) || (b <= x <= a)
  }

  /** True while the position is still more than Epsilon away from the target. */
  predicate Animating(r: Renderer) {
    Abs(r.position - r.target) > Epsilon
  }

  /** Math.min(1, Math.max(-1, x)). */
  function Clamp(x: real): (c: real)
    ensures InRange(c)
    ensures InRange(x) ==> c == x
    ensures x < -1.0 ==> c == -1.0
    ensures x > 1.0 ==> c == 1.0
  {
    if x < -1.0 then -1.0 else if x > 1.0 then 1.0 else x
  }

  /** The interpolation factor min(1, elapsed * 0.01) of one animation frame. */
  function StepFraction(elapsed: nat): (t: real)
    ensures 0.0 <= t <= 1.0
    ensures elapsed == 0 <==> t == 0.0
    ensures elapsed >= 100 <==> t == 1.0
  {
    var raw := elapsed as real * RatePerMilli;
    if raw < 1.0 then raw else 1.0
  }

  /** Moving a share t in [0, 1] of the way from a to b never leaves the segment
      and leaves the share 1 - t of the distance. */
  lemma ConvexCombination(a: real, b: real, t: real)
    requires 0.0 <= t <= 1.0
    ensures Between(a, b, a + (b - a) * t)
    ensures Abs(a + (b - a) * t - b) == (1.0 - t) * Abs(a - b)
  {
  }

  /** One animation step from `position` towards `target` after `elapsed` milliseconds. */
  function Step(position: real, target: real, elapsed: nat): (p: real)
    ensures Between(position, target, p)
    ensures InRange(position) && InRange(target) ==> InRange(p)
    ensures elapsed == 0 ==> p == position
    ensures elapsed >= 100 ==> p == target
    ensures elapsed > 0 && position != target ==> Abs(p - target) < Abs(position - target)
    ensures Abs(p - target) == (1.0 - StepFraction(elapsed)) * Abs(position - target)
  {
    var t := StepFraction(elapsed);
    ConvexCombination(position, target, t);
    position + (target - position) * t
  }

  /** moveFlipPosition: a new target to animate towards; the position is kept. */
  function MoveFlipPosition(r: Renderer, posY: real): (r': Renderer)
    ensures r'.target == posY && r'.position == r.position
    ensures Animating(r') <==> Abs(r.position - posY) > Epsilon
    ensures r'.renderRequested
    ensures r' == r.(target := posY, renderRequested := r'.renderRequested)
  {
    r.(target := posY, renderRequested := true)
  }

  /** setFlipPosition: jump to `posY` with nothing left to animate, restarting the frame clock. */
  function SetFlipPosition(r: Renderer, posY: real, now: int): (r': Renderer)
    ensures r'.position == posY && r'.target == posY
    ensures !Animating(r')
    ensures r'.lastRenderTime == now && r'.renderRequested
    ensures r'.pendingTop == r.pendingTop && r'.pendingBottom == r.pendingBottom
    ensures r'.textureTop == r.textureTop && r'.textureBottom == r.textureBottom
  {
    r.(position := posY, target := posY, lastRenderTime := now, renderRequested := true)
  }

  /** setBitmaps: a pending slot is overwritten only by a non-null bitmap. */
  function SetBitmaps(r: Renderer, top: Option<Snapshot>, bottom: Option<Snapshot>): (r': Renderer)
    ensures top.Some? ==> r'.pendingTop == top
    ensures top.None? ==> r'.pendingTop == r.pendingTop
    ensures bottom.Some? ==> r'.pendingBottom == bottom
    ensures bottom.None? ==> r'.pendingBottom == r.pendingBottom
    ensures r'.pendingTop.None? ==> top.None? && r.pendingTop.None?
    ensures r'.pendingBottom.None? ==> bottom.None? && r.pendingBottom.None?
    ensures r' == r.(pendingTop := r'.pendingTop, pendingBottom := r'.pendingBottom)
  {
    r.(pendingTop := if top.Some? then top else r.pendingTop,
       pendingBottom := if bottom.Some? then bottom else r.pendingBottom)
  }

  /** The upload part of onDrawFrame: each pending bitmap goes into its texture
      and is released, so no bitmap is uploaded twice. */
  function UploadPending(r: Renderer): (r': Renderer)
    ensures r'.pendingTop.None? && r'.pendingBottom.None?
    ensures r'.textureTop == (if r.pendingTop.Some? then r.pendingTop else r.textureTop)
    ensures r'.textureBottom == (if r.pendingBottom.Some? then r.pendingBottom else r.textureBottom)
    ensures r'.position == r.position && r'.target == r.target
    ensures r'.lastRenderTime == r.lastRenderTime && r'.renderRequested == r.renderRequested
  {
    r.(textureTop := if r.pendingTop.Some? then r.pendingTop else r.textureTop,
       textureBottom := if r.pendingBottom.Some? then r.pendingBottom else r.textureBottom,
       pendingTop := None,
       pendingBottom := None)
  }

  /** The animation part of onDrawFrame at time `now`: while animating, step
      towards the target, remember the frame time and ask for another frame. */
  function Animate(r: Renderer, now: int): (r': Renderer)
    requires r.lastRenderTime <= now
    ensures r'.target == r.target
    ensures Between(r.position, r.target, r'.position)
    ensures Animating(r) ==> Abs(r'.position - r.target) == (1.0 - StepFraction(now - r.lastRenderTime)) * Abs(r.position - r.target)
    ensures InRange(r.position) && InRange(r.target) ==> InRange(r'.position)
    ensures r'.renderRequested <==> Animating(r) || r.renderRequested
    ensures Animating(r) && now - r.lastRenderTime >= 100 ==> r'.position == r.target
    ensures Animating(r) ==> r'.lastRenderTime == now
    ensures !Animating(r) ==> r' == r
    ensures r'.pendingTop == r.pendingTop && r'.pendingBottom == r.pendingBottom
    ensures r'.textureTop == r.textureTop && r'.textureBottom == r.textureBottom
  {
    if Animating(r) then
      r.(position := Step(r.position, r.target, now - r.lastRenderTime),
         lastRenderTime := now,
         renderRequested := true)
    else
      r
  }

  /** A new target is reached, up to Epsilon, by the first frame at least
      100 ms after the last animation frame. */
  lemma RetargetReached(r: Renderer, posY: real, now: int)
    requires r.lastRenderTime + 100 <= now
    ensures Abs(Animate(MoveFlipPosition(r, posY), now).position - posY) <= Epsilon
  {
  }

  /** Of two snapshot pairs handed over before a frame, only the later one is
      uploaded: the earlier pair never reaches a texture. */
  lemma LatestSnapshotsWin(r: Renderer, top1: Snapshot, bottom1: Snapshot, top2: Snapshot, bottom2: Snapshot)
    ensures var u := UploadPending(SetBitmaps(SetBitmaps(r, Some(top1), Some(bottom1)), Some(top2), Some(bottom2)));
            u.textureTop == Some(top2) && u.textureBottom == Some(bottom2)
            && u.pendingTop.None? && u.pendingBottom.None?
  {
  }
}

=== FILE: traces.dfy ===
/**
  Runs of a BinderView: interleavings of touches, frames, clock ticks and
  adapter bindings, and what holds of every state along them.
*/
module Traces {
  import opened Wrappers
  import opened FlipRenderer
  import opened Binder

  /** Everything that can happen to the view: a touch on the UI thread, a
      frame on the render thread, time passing, or a new adapter. */
  datatype Input = Touched(ev: Touch) | Frame | Tick(ms: nat) | Bind(count: nat)

  /** An input after which the drag target is a real number in any state:
      only a drag at y == 0 on a view of zero height can divide 0 by 0. */
  predicate Defined(inp: Input) {
    inp.Touched? && inp.ev.action == Move ==> inp.ev.height > 0 || inp.ev.y != 0.0
  }

  /** One input applied to a valid view. */
  function Apply(s: BinderView, inp: Input): (r: BinderView)
    requires Valid(s) && Defined(inp)
    ensures Valid(r)
    ensures inp.Touched? || inp.Frame? ==> r.count == s.count
    ensures r.index != s.index ==> inp.Bind? || (inp.Touched? && inp.ev.action == Up && r.mode == FlipNone)
  {
    match inp
    case Touched(ev) =>
      OnTouchPreservesValid(s, ev);
      OnTouch(s, ev)
    case Frame =>
      DrawFramePreservesValid(s);
      DrawFrame(s)
    case Tick(ms) => s.(now := s.now + ms)
    case Bind(count) => SetAdapter(s, count)
  }

  /** The view after a whole run of inputs. */
  function Run(s: BinderView, inputs: seq<Input>): (r: BinderView)
    requires Valid(s)
    requires forall k :: 0 <= k < |inputs| ==> Defined(inputs[k])
    ensures Valid(r)
    ensures (forall k :: 0 <= k < |inputs| ==> !inputs[k].Bind?) ==> r.count == s.count
    decreases |inputs|
  {
    if |inputs| == 0 then s else Run(Apply(s, inputs[0]), inputs[1..])
  }

  lemma InitialValid()
    ensures Valid(Binder.Initial)
  {
    assert Panels(0) == {};
  }

  /** Along any run from a valid view, at every intermediate state: the index
      names an existing panel, a flip in progress has a panel to flip to, and
      the flip position and its target stay within [-1, 1]. */
  lemma EveryPrefixInBounds(s: BinderView, inputs: seq<Input>)
    requires Valid(s)
    requires forall k :: 0 <= k < |inputs| ==> Defined(inputs[k])
    ensures forall n :: 0 <= n <= |inputs| ==>
              var r := Run(s, inputs[..n]);
              && (r.count > 0 ==> 0 <= r.index < r.count)
              && (r.mode == FlipNext ==> r.index + 1 < r.count)
              && (r.mode == FlipPrev ==> 0 < r.index)
              && InRange(r.renderer.position) && InRange(r.renderer.target)
  {
    forall n | 0 <= n <= |inputs|
      ensures Valid(Run(s, inputs[..n]))
    {
      assert forall k :: 0 <= k < n ==> inputs[..n][k] == inputs[k];
    }
  }

  // A flip that commits, step by step: three panels, a press in the lower
  // half, a drag to the top, a release there, and time for the animation.

  const Bound3 := BinderView(FlipNone, 0, 3, {0, 1}, map[0 := true, 1 := false, 2 := true],
                             FlipRenderer.Initial, 0)
  const Pressed3 := Bound3.(mode := FlipNext,
                            renderer := Renderer(-1.0, -1.0, Some(PanelImage(0)), Some(PanelImage(1)),
                                                 None, None, 0, true))
  const Dragged3 := Pressed3.(renderer := Pressed3.renderer.(target := 0.8))
  const Released3 := Dragged3.(index := 1, mode := FlipNone,
                               renderer := Dragged3.renderer.(target := 1.0))
  const Animated3 := Released3.(now := 100,
                                renderer := Renderer(1.0, 1.0, None, None, Some(PanelImage(0)),
                                                     Some(PanelImage(1)), 100, true))
  const Settled3 := Animated3.(attached := {0, 1, 2}, visible := map[0 := false, 1 := true, 2 := false],
                               renderer := Animated3.renderer.(renderRequested := false))

  lemma BindThreePanels()
    ensures SetAdapter(Binder.Initial, 3) == Bound3
  {
    var r := SetAdapter(Binder.Initial, 3);
    assert r.visible.Keys == {0, 1, 2};
  }

  lemma PressInLowerHalf()
    ensures OnTouch(Bound3, Touch(Down, 90.0, 100, false)) == Pressed3
  {
  }

  lemma DragToTop()
    ensures OnTouch(Pressed3, Touch(Move, 10.0, 100, false)) == Dragged3
  {
    assert MoveTarget(20.0, 100) * 100.0 == 80.0;
  }

  lemma ReleaseAtTop()
    ensures OnTouch(Dragged3, Touch(Up, 10.0, 100, false)) == Released3
  {
  }

  lemma AnimateAfterPause()
    ensures DrawFrame(Released3.(now := 100)) == Animated3
  {
    assert Step(-1.0, 1.0, 100) == 1.0;
  }

  lemma SettleAfterAnimation()
    ensures DrawFrame(Animated3) == Settled3
  {
    var r := DrawFrame(Animated3);
    assert r.attached == Neighbourhood(1, 3) == {0, 1, 2};
    assert r.visible.Keys == {0, 1, 2};
  }

  /** The whole committed flip, from binding to settling: the index advances
      to 1, the renderer settles at +1 having uploaded snapshots of panels 0
      and 1, panel 1 is shown and panels 0 and 2 stay attached but hidden. */
  lemma ForwardFlipCommits()
    ensures SetAdapter(Binder.Initial, 3) == Bound3
    ensures OnTouch(Bound3, Touch(Down, 90.0, 100, false)) == Pressed3
    ensures OnTouch(Pressed3, Touch(Move, 10.0, 100, false)) == Dragged3
    ensures OnTouch(Dragged3, Touch(Up, 10.0, 100, false)) == Released3
    ensures DrawFrame(DrawFrame(Released3.(now := 100))) == Settled3
    ensures Released3.index == 1 && Settled3.renderer.position == 1.0
    ensures Settled3.renderer.textureTop == Some(PanelImage(0))
    ensures Settled3.renderer.textureBottom == Some(PanelImage(1))
    ensures Settled3.attached == {0, 1, 2}
    ensures Settled3.visible == map[0 := false, 1 := true, 2 := false]
  {
    BindThreePanels();
    PressInLowerHalf();
    DragToTop();
    ReleaseAtTop();
    AnimateAfterPause();
    SettleAfterAnimation();
  }

  /** A forward flip from any panel but the last, pressed in the lower half and
      released in the upper half, advances the index by one and animates to +1. */
  lemma ForwardFlipAdvances(s: BinderView, down: real, up: real, height: nat)
    requires Valid(s) && s.mode == FlipNone && s.index + 1 < s.count
    requires 2.0 * down > height as real && 2.0 * up < height as real
    ensures var pressed := OnTouch(s, Touch(Down, down, height, false));
            var released := OnTouch(pressed, Touch(Up, up, height, false));
            && pressed.mode == FlipNext
            && released.index == s.index + 1 && released.mode == FlipNone
            && released.renderer.target == 1.0
  {
  }

  /** A backward flip from any panel but the first, pressed in the upper half
      and released in the lower half, moves the index back by one and animates to -1. */
  lemma BackwardFlipRetreats(s: BinderView, down: real, up: real, height: nat)
    requires Valid(s) && s.mode == FlipNone && s.index > 0
    requires 2.0 * down < height as real && 2.0 * up > height as real
    ensures var pressed := OnTouch(s, Touch(Down, down, height, false));
            var released := OnTouch(pressed, Touch(Up, up, height, false));
            && pressed.mode == FlipPrev
            && released.index == s.index - 1 && released.mode == FlipNone
            && released.renderer.target == -1.0
  {
  }

  /** A committed forward flip undone by a committed backward flip returns to
      the panel it started from, with no gesture in progress. */
  lemma FlipThereAndBack(s: BinderView, low: real, high: real, height: nat)
    requires Valid(s) && s.mode == FlipNone && s.index + 1 < s.count
    requires 2.0 * low > height as real && 2.0 * high < height as real
    ensures var forward := OnTouch(OnTouch(s, Touch(Down, low, height, false)), Touch(Up, high, height, false));
            var back := OnTouch(OnTouch(forward, Touch(Down, high, height, false)), Touch(Up, low, height, false));
            back.index == s.index && back.mode == FlipNone && back.count == s.count
  {
    ForwardFlipAdvances(s, low, high, height);
    var forward := OnTouch(OnTouch(s, Touch(Down, low, height, false)), Touch(Up, high, height, false));
    OnTouchPreservesValid(s, Touch(Down, low, height, false));
    OnTouchPreservesValid(OnTouch(s, Touch(Down, low, height, false)), Touch(Up, high, height, false));
    BackwardFlipRetreats(forward, high, low, height);
  }

  /** A forward flip released back in the lower half is cancelled: the index
      stays and the renderer animates back to -1. */
  lemma ForwardFlipCancels(s: BinderView, down: real, up: real, height: nat)
    requires Valid(s) && s.mode == FlipNone && s.index + 1 < s.count
    requires 2.0 * down > height as real && 2.0 * up > height as real
    ensures var pressed := OnTouch(s, Touch(Down, down, height, false));
            var released := OnTouch(pressed, Touch(Up, up, height, false));
            && pressed.mode == FlipNext
            && released.index == s.index && released.mode == FlipNone
            && released.renderer.target == -1.0
  {
  }

  /** A press towards a panel that does not exist leaves the view idle. */
  lemma NoFlipPastTheEnds(s: BinderView, y: real, height: nat)
    requires Valid(s) && s.mode == FlipNone
    requires (2.0 * y > height as real && s.index == s.count - 1)
          || (2.0 * y < height as real && s.index == 0)
    ensures OnTouch(s, Touch(Down, y, height, false)) == s
  {
  }

  /** With no gesture in progress, 100 ms of quiet and two frames settle the
      view: the current panel is shown and exactly its neighbourhood is attached. */
  lemma SettlesAfterPause(s: BinderView)
    requires Valid(s) && s.mode == FlipNone
    ensures var paused := s.(now := s.now + 100);
            var settled := DrawFrame(DrawFrame(paused));
            && !Animating(settled.renderer)
            && settled.attached == Neighbourhood(s.index, s.count)
            && (s.count > 0 ==> settled.visible[s.index])
            && settled.index == s.index
  {
    var paused := s.(now := s.now + 100);
    var first := DrawFrame(paused);
    if Animating(paused.renderer) {
      assert !Animating(first.renderer);
      DrawFramePreservesValid(paused);
    }
  }
}

=== FILE: wrappers.dfy ===
/** Optional values, standing in for the nullable Bitmap references of the renderer. */
module Wrappers {

  datatype Option<+T> = None | Some(value: T)
}
